=== FILE: README.md ===
# Network error classification, modelled in Dafny

This project models the error layer of the network module of a peer-to-peer
node (`network/src/error.rs`). That layer turns the failures of several
upstream error types into one opaque `NetworkError`. Those types cover
byte-stream I/O, signature verification, protobuf encoding and decoding,
multiaddr parsing, futures channels, tokio timeouts and the peer manager.
Each conversion except the timeout one wraps the native failure as the root
of an `anyhow` causal chain and puts a `NetworkErrorKind` on top as context;
the timeout conversion builds the bare `TimedOut` error and drops its cause.

Files:

- `option.dfy` (module `Optional`): the `Option` datatype.
- `error_kind.dfy` (module `ErrorKinds`): the twelve kinds, their fixed
  descriptions, and an inverse that reads a description back to its kind.
- `network_error.dfy` (module `NetworkErrors`): the causal chain, the
  `NetworkError` wrapper, the `From` conversions, the partial accessor
  `OuterKind`, the display rendering, and the lemmas about them.

The `anyhow::Error` chain is a non-empty sequence of layers, outermost first.
A layer is a kind (`KindLayer`), a wrapped native failure (`NativeLayer`), or
any other error a caller placed in the chain (`OpaqueLayer`). A native
failure is one layer, together with whatever source chain it carries itself.
So the last layer, `RootCause`, is the error the conversion wrapped.
`anyhow::Error::new(x)` starts a chain with `x` as its only layer
(`NewChain`). `.context(c)` puts `c` on top (`Context`).
`From<anyhow::Error>` adopts a chain unchanged (`FromAnyhow`). `Classify` is
the mapping from native failure to kind. `FromNative` follows the `From`
implementations one branch each, and its contract ties every branch to
`Classify`.

Three facts about the code shape the model:

- `Display` prints only the outermost layer, because `#[error("{inner}")]`
  uses the plain `Display` of `anyhow::Error`. So a converted error renders
  as its kind's description alone (`Display`, `DisplayOfConversion`).
- `From<anyhow::Error>` accepts chains with no kind on top. So `OuterKind`
  is partial (`OuterKindPartial`).
- `NetworkError` has no accessor for its kind and no method to add context.
  `OuterKind` reads the outermost layer, and `Context` is the `anyhow`
  operation the conversions use.

## Model

| member | source | states |
|---|---|---|
| ErrorKinds.Msg | network/src/error.rs:19-53 | Each kind displays as the text of its `#[error]` attribute, and that text identifies the kind: `KindOfDescription` reads it back to `k`. |
| ErrorKinds.DescriptionParseSound | network/src/error.rs:19-53 | Any kind recovered from a string has exactly that string as its description. |
| ErrorKinds.DescriptionsDistinct | network/src/error.rs:19-53 | Two kinds have the same description exactly when they are the same kind, so all twelve descriptions are pairwise distinct. |
| ErrorKinds.AllKindsEnumerates | network/src/error.rs:17-54 | The enumeration is closed: it lists all twelve kinds, each exactly once. |
| NetworkErrors.NewChain | network/src/error.rs:59 | A new chain's outermost layer is also its root: the error it was created from. |
| NetworkErrors.Context | network/src/error.rs:72-74 | Putting context on a chain makes it the outermost layer and keeps every layer beneath it, so the whole old chain and hence its root cause are unchanged. |
| NetworkErrors.FromAnyhow | network/src/error.rs:64-68 | An adopted chain keeps its root cause, and has an outer kind exactly when the caller put a kind on top. |
| NetworkErrors.WrapNative | network/src/error.rs:70-75 | Wrapping a native failure under a kind gives a two-layer error whose outer kind is that kind and whose root cause is the native failure. |
| NetworkErrors.Classify | network/src/error.rs:70-146 | The mapping never yields `TimerError`, `UnknownTimerError` or `ParsingError`. A peer-manager failure maps to `IoError`, `NotConnected` or `PeerManagerError` exactly for the I/O, not-connected and other sub-kinds. |
| NetworkErrors.Display | network/src/error.rs:11-14 | An error whose outermost layer is a kind renders as that kind's description, and reading the rendering back recovers the kind. |
| NetworkErrors.OuterKind | network/src/error.rs:13-15 | Reading the kind on top of an error succeeds exactly when the outermost layer of its chain is a kind, and then returns that kind. |
| NetworkErrors.FromKind | network/src/error.rs:56-62 | An error built from a kind has one layer. That kind is both its outer kind and its root, and the chain holds no native failure. |
| NetworkErrors.FromNative | network/src/error.rs:70-146 | Every native failure yields an outer kind, and that kind is the one the mapping table gives. A non-timeout failure yields the two-layer chain of that kind above the original failure. The timeout yields the bare `TimedOut` error with no native cause. |
| NetworkErrors.RootCauseKept | network/src/error.rs:70-140 | The original failure is the root cause of the converted error for every native type except the timeout. |
| NetworkErrors.PeerManagerSplit | network/src/error.rs:126-140 | A peer-manager failure becomes `IoError` exactly for the I/O sub-kind and `NotConnected` exactly for the not-connected sub-kind. It becomes `PeerManagerError` exactly for every other sub-kind. The peer-manager failure stays the root cause in all three cases. |
| NetworkErrors.FixedMapping | network/src/error.rs:70-124 | Each native type other than the peer manager's maps to one fixed kind. Encode and decode failures share `ProtobufParseError`. |
| NetworkErrors.ElapsedIsBareTimedOut | network/src/error.rs:142-146 | Converting a tokio timeout yields exactly the error built from `TimedOut`: a single kind layer with the timeout itself dropped. |
| NetworkErrors.ConversionImage | network/src/error.rs:37-146 | A kind is the outer kind of some converted native failure exactly when it is not `TimerError`, `UnknownTimerError` or `ParsingError`. |
| NetworkErrors.FromAnyhowIdentity | network/src/error.rs:64-68 | Adopting a chain keeps it unchanged, and adopting an error's own chain gives back that error. |
| NetworkErrors.OuterKindPartial | network/src/error.rs:64-68 | Some adopted chain has no kind on top, so the outer kind of a `NetworkError` is not always defined. |
| NetworkErrors.DisplayOfConversion | network/src/error.rs:11-12 | A converted error renders as the description of its kind, whatever its native cause would render as. |
| NetworkErrors.DisplayOfKind | network/src/error.rs:11-62 | An error built from a kind renders as that kind's description. |
| NetworkErrors.DisplayIdentifiesKind | network/src/error.rs:11-53 | Reading the rendering of a converted error back as a description recovers exactly the outer kind the conversion chose. |

## Left out

- RootCause: a native failure's own `source()` chain is folded into its one layer, so `RootCause` means the error the conversion wrapped. `anyhow`'s `root_cause()` would return the deepest source inside it, which this model does not track.
- The internals of `anyhow`: downcasting, backtraces and the alternate `{:#}` rendering of the whole chain. They are library behaviour. The chain is modelled only as a sequence of layers.
- The payloads of the native failure types (`io::Error`, `VerifyError`, the prost errors, the multiaddr error, the futures channel errors and tokio's `Elapsed`). They are opaque tags. How a native failure renders is a parameter of `Display`.
- The definition of `PeerManagerError`, which lives in `peer_manager` and is not part of this model. Only its split into I/O, not-connected and every other variant is modelled, each with an opaque payload.
- The `Debug` derives and the expansion of the `thiserror` macros.
- Thread safety and `Send`/`Sync`. The layer holds no state, so there is no concurrency to model.

=== FILE: error_kind.dfy ===
/**
  The closed set of failure categories of the network module, each with the
  fixed description its `Display` rendering produces.
 */
module ErrorKinds {
  import opened Optional

  /** The twelve categories, in declaration order. */
  datatype Kind =
    | IoError
    | ProtobufParseError
    | SignatureError
    | MultiaddrError
    | MpscSendError
    | OneshotCanceled
    | TimerError
    | TimedOut
    | UnknownTimerError
    | PeerManagerError
    | ParsingError
    | NotConnected

  /**
    The description a kind displays as. It identifies the kind: reading it
    back with `KindOfDescription` yields `k`.
   */
  function Msg(k: Kind): (s: string)
    ensures KindOfDescription(s) == Some(k)
  {
    match k
    case IoError => "IO error"
    case ProtobufParseError => "Error parsing protobuf message"
    case SignatureError => "Invalid signature error"
    case MultiaddrError => "Failed to parse multiaddrs"
    case MpscSendError => "Error sending on mpsc channel"
    case OneshotCanceled => "Oneshot channel unexpectedly dropped"
    case TimerError => "Error setting timeout"
    case TimedOut => "Operation timed out"
    case UnknownTimerError => "Unknown tokio::time Error variant"
    case PeerManagerError => "PeerManager error"
    case ParsingError => "Parsing error"
    case NotConnected => "Peer not connected"
  }

  /** Every kind, once each, in declaration order. */
  const AllKinds: seq<Kind> := [
    IoError, ProtobufParseError, SignatureError, MultiaddrError,
    MpscSendError, OneshotCanceled, TimerError, TimedOut,
    UnknownTimerError, PeerManagerError, ParsingError, NotConnected
  ]

  /** Recovers the kind whose description is `s`, if there is one. */
  function KindOfDescription(s: string): Option<Kind> {
    if s == "IO error" then Some(IoError)
    else if s == "Error parsing protobuf message" then Some(ProtobufParseError)
    else if s == "Invalid signature error" then Some(SignatureError)
    else if s == "Failed to parse multiaddrs" then Some(MultiaddrError)
    else if s == "Error sending on mpsc channel" then Some(MpscSendError)
    else if s == "Oneshot channel unexpectedly dropped" then Some(OneshotCanceled)
    else if s == "Error setting timeout" then Some(TimerError)
    else if s == "Operation timed out" then Some(TimedOut)
    else if s == "Unknown tokio::time Error variant" then Some(UnknownTimerError)
    else if s == "PeerManager error" then Some(PeerManagerError)
    else if s == "Parsing error" then Some(ParsingError)
    else if s == "Peer not connected" then Some(NotConnected)
    else None
  }

  /** Reading a string back only succeeds on the exact description of the kind it yields. */
  lemma DescriptionParseSound(s: string)
    ensures KindOfDescription(s).Some? ==> Msg(KindOfDescription(s).value) == s
  {
    // Follow the branch `KindOfDescription` takes on `s`.
    if s == "IO error" {
      assert KindOfDescription(s) == Some(IoError) && Msg(IoError) == s;
    } else if s == "Error parsing protobuf message" {
      assert KindOfDescription(s) == Some(ProtobufParseError) && Msg(ProtobufParseError) == s;
    } else if s == "Invalid signature error" {
      assert KindOfDescription(s) == Some(SignatureError) && Msg(SignatureError) == s;
    } else if s == "Failed to parse multiaddrs" {
      assert KindOfDescription(s) == Some(MultiaddrError) && Msg(MultiaddrError) == s;
    } else if s == "Error sending on mpsc channel" {
      assert KindOfDescription(s) == Some(MpscSendError) && Msg(MpscSendError) == s;
    } else if s == "Oneshot channel unexpectedly dropped" {
      assert KindOfDescription(s) == Some(OneshotCanceled) && Msg(OneshotCanceled) == s;
    } else if s == "Error setting timeout" {
      assert KindOfDescription(s) == Some(TimerError) && Msg(TimerError) == s;
    } else if s == "Operation timed out" {
      assert KindOfDescription(s) == Some(TimedOut) && Msg(TimedOut) == s;
    } else if s == "Unknown tokio::time Error variant" {
      assert KindOfDescription(s) == Some(UnknownTimerError) && Msg(UnknownTimerError) == s;
    } else if s == "PeerManager error" {
      assert KindOfDescription(s) == Some(PeerManagerError) && Msg(PeerManagerError) == s;
    } else if s == "Parsing error" {
      assert KindOfDescription(s) == Some(ParsingError) && Msg(ParsingError) == s;
    } else if s == "Peer not connected" {
      assert KindOfDescription(s) == Some(NotConnected) && Msg(NotConnected) == s;
    }
  }

  /** The twelve descriptions are pairwise distinct. */
  lemma DescriptionsDistinct(a: Kind, b: Kind)
    ensures Msg(a) == Msg(b) <==> a == b
  {
  }

  /** `AllKinds` lists every kind exactly once. */
  lemma AllKindsEnumerates()
    ensures |AllKinds| == 12
    ensures forall k: Kind :: k in AllKinds
    ensures forall i, j :: 0 <= i < j < |AllKinds| ==> AllKinds[i] != AllKinds[j]
  {
    forall k: Kind ensures k in AllKinds {
      match k
      case IoError => assert AllKinds[0] == k;
      case ProtobufParseError => assert AllKinds[1] == k;
      case SignatureError => assert AllKinds[2] == k;
      case MultiaddrError => assert AllKinds[3] == k;
      case MpscSendError => assert AllKinds[4] == k;
      case OneshotCanceled => assert AllKinds[5] == k;
      case TimerError => assert AllKinds[6] == k;
      case TimedOut => assert AllKinds[7] == k;
      case UnknownTimerError => assert AllKinds[8] == k;
      case PeerManagerError => assert AllKinds[9] == k;
      case ParsingError => assert AllKinds[10] == k;
      case NotConnected => assert AllKinds[11] == k;
    }
  }
}

=== FILE: network_error.dfy ===
/**
  The single error type of the network module and the conversions that turn
  each upstream error type into it.

  A `NetworkError` wraps a type-erased causal chain. The chain is modelled as a
  non-empty sequence of layers, outermost first: the last layer is the root
  cause. Each conversion except the timeout one puts a kind on top of the
  native failure it wraps; the timeout conversion builds the bare `TimedOut`
  error and drops its cause.
 */
module NetworkErrors {
  import opened Optional
  import opened ErrorKinds

  /** A peer-manager failure, seen only through the split the conversion makes. */
  datatype PeerManagerSub =
    | PMIo(ioDetail: nat)
    | PMNotConnected(peer: nat)
    | PMOther(tag: nat)

  /** The native failure types a conversion exists for; their payloads are opaque. */
  datatype Native =
    | Io
    | Verify
    | Encode
    | Decode
    | Multiaddr
    | MpscSend
    | OneshotCanceledNative
    | Elapsed
    | PeerMgr(sub: PeerManagerSub)

  /** One link of a causal chain. `OpaqueLayer` is any other error a caller put in a chain. */
  datatype Layer =
    | KindLayer(kind: Kind)
    | NativeLayer(native: Native)
    | OpaqueLayer(text: string)

  /** A causal chain holds at least the error it was created from. */
  type Chain = c: seq<Layer> | |c| > 0 witness [OpaqueLayer("")]

  datatype NetworkError = NetworkError(inner: Chain)

  /** The innermost layer of a chain: the error it was first created from. */
  function Root(c: Chain): Layer {
    c[|c| - 1]
  }

  /** The innermost layer of an error's chain. */
  function RootCause(e: NetworkError): Layer {
    Root(e.inner)
  }

  /** A chain holding one error and nothing beneath it. */
  function NewChain(root: Layer): (c: Chain)
    ensures c[0] == root && Root(c) == root
  {
    [root]
  }

  /** Puts `ctx` on top of `c`; the root cause stays the one `c` had. */
  function Context(c: Chain, ctx: Layer): (r: Chain)
    ensures r[0] == ctx
    ensures r[1..] == c
    ensures Root(r) == Root(c)
    ensures |r| == |c| + 1
  {
    [ctx] + c
  }

  /** The kind on top of the chain, if the outermost layer is a kind. */
  function OuterKind(e: NetworkError): (r: Option<Kind>)
    ensures r.Some? <==> e.inner[0].KindLayer?
    ensures r.Some? ==> e.inner[0] == KindLayer(r.value)
  {
    match e.inner[0]
    case KindLayer(k) => Some(k)
    case _ => None
  }

  /** A chain contains no native failure at any depth. */
  predicate NoNativeCause(c: Chain) {
    forall i :: 0 <= i < |c| ==> !c[i].NativeLayer?
  }

  /** Building an error directly from a kind. */
  function FromKind(k: Kind): (e: NetworkError)
    ensures OuterKind(e) == Some(k)
    ensures |e.inner| == 1 && RootCause(e) == KindLayer(k)
    ensures NoNativeCause(e.inner)
  {
    NetworkError(NewChain(KindLayer(k)))
  }

  /**
    Adopting a chain a caller already built: its root cause is kept, and it
    has an outer kind only if the caller put a kind on top.
   */
  function FromAnyhow(c: Chain): (e: NetworkError)
    ensures RootCause(e) == Root(c)
    ensures OuterKind(e).Some? <==> c[0].KindLayer?
  {
    NetworkError(c)
  }

  /** Wraps a native failure as the root and puts `k` on top as context. */
  function WrapNative(n: Native, k: Kind): (e: NetworkError)
    ensures OuterKind(e) == Some(k)
    ensures RootCause(e) == NativeLayer(n)
    ensures |e.inner| == 2
  {
    FromAnyhow(Context(NewChain(NativeLayer(n)), KindLayer(k)))
  }

  /**
    The static mapping from native failure to kind, one row per conversion,
    with the peer-manager failure split by sub-kind.
   */
  function Classify(n: Native): (k: Kind)
    ensures k != TimerError && k != UnknownTimerError && k != ParsingError
    ensures n.PeerMgr? ==> (k == IoError <==> n.sub.PMIo?)
    ensures n.PeerMgr? ==> (k == NotConnected <==> n.sub.PMNotConnected?)
    ensures n.PeerMgr? ==> (k == PeerManagerError <==> n.sub.PMOther?)
  {
    match n
    case Io => IoError
    case Verify => SignatureError
    case Encode => ProtobufParseError
    case Decode => ProtobufParseError
    case Multiaddr => MultiaddrError
    case MpscSend => MpscSendError
    case OneshotCanceledNative => OneshotCanceled
    case Elapsed => TimedOut
    case PeerMgr(PMIo(_)) => IoError
    case PeerMgr(PMNotConnected(_)) => NotConnected
    case PeerMgr(PMOther(_)) => PeerManagerError
  }

  /**
    The conversions, one branch per `From` implementation. Every conversion but
    the timeout one keeps the native failure as the root cause beneath the kind
    of the mapping table; the timeout conversion drops its cause.
   */
  function FromNative(n: Native): (e: NetworkError)
    ensures OuterKind(e) == Some(Classify(n))
    ensures !n.Elapsed? ==> e.inner == [KindLayer(Classify(n)), NativeLayer(n)]
    ensures n.Elapsed? ==> e == FromKind(TimedOut) && NoNativeCause(e.inner)
  {
    match n
    case Io => WrapNative(n, IoError)
    case Verify => WrapNative(n, SignatureError)
    case Encode => WrapNative(n, ProtobufParseError)
    case Decode => WrapNative(n, ProtobufParseError)
    case Multiaddr => WrapNative(n, MultiaddrError)
    case MpscSend => WrapNative(n, MpscSendError)
    case OneshotCanceledNative => WrapNative(n, OneshotCanceled)
    case PeerMgr(sub) =>
      (match sub
       case PMIo(_) => WrapNative(n, IoError)
       case PMNotConnected(_) => WrapNative(n, NotConnected)
       case PMOther(_) => WrapNative(n, PeerManagerError))
    case Elapsed => FromKind(TimedOut)
  }

  /**
    How a `NetworkError` renders: the text of its outermost layer only. When
    that layer is a kind, the rendering is its description and identifies it.
   */
  function Display(e: NetworkError, nativeText: Native -> string): (r: string)
    ensures OuterKind(e).Some? ==> r == Msg(OuterKind(e).value)
    ensures OuterKind(e).Some? ==> KindOfDescription(r) == OuterKind(e)
  {
    match e.inner[0]
    case KindLayer(k) => Msg(k)
    case NativeLayer(n) => nativeText(n)
    case OpaqueLayer(t) => t
  }

  /** The kinds some `From` conversion of a native failure puts on top. */
  ghost predicate ReachableByConversion(k: Kind) {
    exists n: Native :: OuterKind(FromNative(n)) == Some(k)
  }

  // ---------------------------------------------------------------------------
  // Properties of the conversions
  // ---------------------------------------------------------------------------

  /** Every conversion of a native failure other than a timeout keeps it as the root cause. */
  lemma RootCauseKept(n: Native)
    ensures !n.Elapsed? <==> RootCause(FromNative(n)) == NativeLayer(n)
  {
  }

  /**
    A peer-manager failure is classified by its sub-kind alone, and the
    three outcomes exclude each other.
   */
  lemma PeerManagerSplit(sub: PeerManagerSub)
    ensures OuterKind(FromNative(PeerMgr(sub))) == Some(IoError) <==> sub.PMIo?
    ensures OuterKind(FromNative(PeerMgr(sub))) == Some(NotConnected) <==> sub.PMNotConnected?
    ensures OuterKind(FromNative(PeerMgr(sub))) == Some(PeerManagerError) <==> sub.PMOther?
    ensures RootCause(FromNative(PeerMgr(sub))) == NativeLayer(PeerMgr(sub))
  {
  }

  /** Each native type other than the peer-manager one maps to a single fixed kind. */
  lemma FixedMapping()
    ensures OuterKind(FromNative(Io)) == Some(IoError)
    ensures OuterKind(FromNative(Verify)) == Some(SignatureError)
    ensures OuterKind(FromNative(Encode)) == Some(ProtobufParseError)
    ensures OuterKind(FromNative(Decode)) == Some(ProtobufParseError)
    ensures OuterKind(FromNative(Multiaddr)) == Some(MultiaddrError)
    ensures OuterKind(FromNative(MpscSend)) == Some(MpscSendError)
    ensures OuterKind(FromNative(OneshotCanceledNative)) == Some(OneshotCanceled)
    ensures OuterKind(FromNative(Elapsed)) == Some(TimedOut)
  {
  }

  /** The timeout conversion builds exactly the bare `TimedOut` error. */
  lemma ElapsedIsBareTimedOut()
    ensures FromNative(Elapsed) == FromKind(TimedOut)
    ensures FromNative(Elapsed).inner == [KindLayer(TimedOut)]
  {
  }

  /**
    The kinds the conversions reach are exactly nine of the twelve:
    `TimerError`, `UnknownTimerError` and `ParsingError` are never produced
    from a native failure.
   */
  lemma ConversionImage(k: Kind)
    ensures ReachableByConversion(k)
      <==> k != TimerError && k != UnknownTimerError && k != ParsingError
  {
    match k
    case IoError => assert OuterKind(FromNative(Io)) == Some(k);
    case ProtobufParseError => assert OuterKind(FromNative(Encode)) == Some(k);
    case SignatureError => assert OuterKind(FromNative(Verify)) == Some(k);
    case MultiaddrError => assert OuterKind(FromNative(Multiaddr)) == Some(k);
    case MpscSendError => assert OuterKind(FromNative(MpscSend)) == Some(k);
    case OneshotCanceled => assert OuterKind(FromNative(OneshotCanceledNative)) == Some(k);
    case TimedOut => assert OuterKind(FromNative(Elapsed)) == Some(k);
    case PeerManagerError => assert OuterKind(FromNative(PeerMgr(PMOther(0)))) == Some(k);
    case NotConnected => assert OuterKind(FromNative(PeerMgr(PMNotConnected(0)))) == Some(k);
    case TimerError =>
    case UnknownTimerError =>
    case ParsingError =>
  }

  /** Adopting a chain changes nothing: it is the identity both ways round. */
  lemma FromAnyhowIdentity(c: Chain, e: NetworkError)
    ensures FromAnyhow(c).inner == c
    ensures FromAnyhow(e.inner) == e
  {
  }

  /**
    An adopted chain has a kind on top only if it was put there: the outer
    kind is partial, and some adopted errors have none.
   */
  lemma OuterKindPartial()
    ensures exists c: Chain :: OuterKind(FromAnyhow(c)) == None
  {
    var c: Chain := [OpaqueLayer("connection reset")];
    assert OuterKind(FromAnyhow(c)) == None;
  }

  /**
    A converted error renders as its kind's description alone, whatever its
    native cause renders as.
   */
  lemma DisplayOfConversion(n: Native, nativeText: Native -> string)
    ensures Display(FromNative(n), nativeText) == Msg(Classify(n))
  {
  }

  /** An error built from a kind renders as that kind's description. */
  lemma DisplayOfKind(k: Kind, nativeText: Native -> string)
    ensures Display(FromKind(k), nativeText) == Msg(k)
  {
  }

  /**
    The rendering of a converted error identifies its kind: reading the
    description back recovers the kind the conversion chose.
   */
  lemma DisplayIdentifiesKind(n: Native, nativeText: Native -> string)
    ensures KindOfDescription(Display(FromNative(n), nativeText)) == OuterKind(FromNative(n))
  {
  }
}

=== FILE: option.dfy ===
/** An optional value: the result of an accessor that may find nothing. */
module Optional {

  datatype Option<+T> = None | Some(value: T)

}
